=== FILE: README.md ===
# RDEcloud_bot: settings store, prompt building and repeat budget

RDEcloud_bot is a Telegram bot that suggests dinner recipes. Its handlers live in
`main.py`. `/recipe [preferences] [ingredients...]` asks a text-generation service
for a recipe. `/settime <hour> <minute> <repeats>` registers a daily trigger that
pushes a fresh recipe while the user's repeat budget lasts. Two inline buttons either
regenerate the recipe or accept it, and accepting stops further pushes. All per-user
state lives in the in-memory dict `user_settings`.

This project models that logic as pure Dafny functions:

- `Decimal` models Python's `int(token)` on a command argument and the `{n}` and
  `{n:02d}` f-string fields, with their round trip.
- `Prompt` models how `/recipe` splits its arguments. The first token is the
  preferences, and the remaining tokens joined with `", "` are the ingredients.
  It also models the prompt `generate_recipe` builds from them. Both steps come with
  inverses (`Split`, `ParsePrompt`) and round-trip lemmas.
- `Handlers` models `user_settings` as a `map<UserId, Settings>` in which every key of
  a record is an `Option`. Each handler is a function from the state (store plus
  registered triggers) to a `Step`. A `Step` holds the new state, the prompt sent for
  generation, the messages sent, and the exception that ended the handler, if any.
  The generated text is an opaque parameter.
- `Budget` runs sequences of events through the handlers. It proves the invariant
  `0 <= repeats_left <= repeats` and bounds the number of scheduled sends.

## Model

| member | source | states |
|---|---|---|
| Decimal.ParseInt | main.py:100-103 | `int()` on a token succeeds exactly when it is an optional sign followed by one or more decimal digits. The value is the decimal value of the digits, negated after a `-`, so "08" gives 8, "+5" gives 5 and "-07" gives -7. |
| Decimal.Format02 | main.py:113 | `{n:02d}` is at least two characters, exactly two digits for 0..99, and reads back as `n`. |
| Decimal.FormatRoundTrip | main.py:113 | `{n}` of any integer reads back through `int()` as the same integer. |
| Decimal.FormatInjective | main.py:113 | Two different repeat counts never produce the same `{n}` text. |
| Decimal.Format | main.py:113 | `{repeats}` is non-empty and starts with `-` exactly for a negative count. |
| Prompt.Split | main.py:71 | The inverse of the `", ".join` used here, written as Python's `str.split(", ")`. No piece contains the separator, and joining the pieces again gives back the original string. |
| Prompt.Join | main.py:71 | `", ".join(xs)` starts with the first item and, with two or more items, is at least as long as the first two items plus the separator. Its partner is `Split` (see `Prompt.SplitJoin`). |
| Prompt.SplitJoin | main.py:71 | `", ".join` of one or more space-free tokens, split on `", "`, gives back exactly those tokens. |
| Prompt.SplitArgs | main.py:66-71 | With no arguments, preferences and ingredients are both "". With one argument, it is the preferences and the ingredients are "". With two or more, the first is the preferences and the rest joined with `", "` are the ingredients. |
| Prompt.SplitArgsRecoverable | main.py:66-71 | For whitespace-split arguments, preferences are non-empty iff there is an argument, and ingredients iff there are two. The original argument list can be rebuilt from the pair. |
| Prompt.BuildPrompt | main.py:45-50 | The prompt always starts with the base instruction. It is longer than the base exactly when preferences or ingredients are non-empty. |
| Prompt.PromptRoundTrip | main.py:45-50 | For space-free preferences, parsing the prompt back gives exactly the preferences and ingredients it was built from. So the preferences clause appears iff preferences is non-empty, the ingredients clause iff ingredients is non-empty, and preferences come first. |
| Prompt.RecipePromptDeterminesArgs | main.py:66-73 | The prompt `/recipe` sends determines the command's arguments. |
| Handlers.ConfiguredRepeats | main.py:64 | The configured repeat count is the stored `repeats`. It is 1 when the user has no record, and also 1 when the record lacks the `repeats` key. |
| Handlers.RemainingRepeats | main.py:118 | The remaining budget is the stored `repeats_left`. It is 0 when the user has no record, and also 0 when the record lacks the `repeats_left` key. |
| Handlers.Start | main.py:37-43 | `/start` sends one fixed greeting and changes nothing. |
| Handlers.Recipe | main.py:62-80 | `/recipe` sends the prompt built from the split arguments. It replaces only this user's record, setting the last recipe to the text and both `repeats_left` and `repeats` to the previously configured count, as `Handlers.ConfiguredRepeats` defines it (1 with no record or no `repeats` key). It replies with the text and the keyboard. |
| Handlers.RandomRecipe | main.py:87-93 | `random_recipe` sends the base prompt and changes only this user's `last_recipe`. It edits the message to the new text with the keyboard. It raises KeyError, with the store unchanged, iff the user has no record. |
| Handlers.AcceptRecipe | main.py:94-96 | `accept_recipe` changes only this user's `repeats_left`, setting it to 0, and edits the message to a closing line quoting the last recipe. It raises KeyError, with nothing changed, iff the record or its `last_recipe` is missing. |
| Handlers.Button | main.py:82-96 | Every press is acknowledged first, and the callback data selects the button's handler. Other data does nothing more. Other users' records and the set of keys never change. |
| Handlers.ParseSettime | main.py:99-105 | `/settime` arguments parse iff there are at least three and each of the first three is an integer. The result is exactly `(int(args[0]), int(args[1]), int(args[2]))`. |
| Handlers.ParseSettimeRoundTrip | main.py:99-102 | Three formatted integers, followed by any extra arguments, parse back to exactly those integers. |
| Handlers.Settime | main.py:98-113 | On malformed arguments, only the usage message is sent and nothing changes. Otherwise only this user's record changes: it becomes exactly `{repeats: r, repeats_left: r}` and `last_recipe` is dropped. For a valid time, one trigger is then appended and the confirmation is sent. For an invalid time, the write is kept but there is no trigger and no reply. The exception is `time()`'s: OverflowError outside the C `int` range, ValueError otherwise. |
| Handlers.ValidTime | main.py:111 | A time `datetime.time` accepts is a minute of the day (0 <= 60 * hour + minute < 1440), and its hour and minute each print as exactly two digits. |
| Handlers.TimeError | main.py:111 | `datetime.time(hour, minute)` raises nothing exactly for a valid time. It raises OverflowError exactly when an argument is outside the C `int` range, and ValueError otherwise. |
| Handlers.Confirmation | main.py:113 | The confirmation starts with its fixed lead. For a valid time, `HH:MM` follows the lead, and the text ends with the repeat count. |
| Handlers.ConfirmationEchoes | main.py:113 | The confirmation shows the two-digit hour, a colon and the two-digit minute at fixed positions, and ends with the repeat count. Each reads back as its number. |
| Handlers.ConfirmationExample | main.py:113 | Hour 18 and minute 5 are shown as "18:05". |
| Handlers.SendRecipe | main.py:115-131 | A fire with the budget missing or `<= 0` changes nothing and sends nothing. With budget `N > 0`, it sends the base prompt and changes only this user's record: `last_recipe` becomes the text, `repeats_left` becomes `N - 1`, and every other field is kept as it was. Exactly one push goes to the user. |
| Budget.Apply | main.py:137-140 | Dispatching one event: every prompt sent starts with the base instruction. Triggers are only added, at most one per event and only by `/settime` for that user. Only a fire pushes a message, and only to its own user. |
| Budget.Run | main.py:137-140 | Over any sequence of events, triggers are never removed: the initial triggers stay as a prefix, and at most one is added per event. |
| Budget.ApplyPreservesGood | main.py:74-131 | Every handler's store write (lines 74, 89, 96, 108, 123 and 131) keeps `0 <= repeats_left <= repeats` for every user, as long as a `/settime` configures a non-negative count. |
| Budget.RunPreservesGood | main.py:74-131 | Any sequence of events keeps the budget invariant across all the store writes (lines 74, 89, 96, 108, 123 and 131), as long as every `/settime` configures a non-negative count. |
| Budget.SendBound | main.py:119-131 | When the user sends no `/recipe` and no `/settime` that parses (a malformed `/settime` changes nothing and may occur), the pushes to the user plus the budget left never exceed the starting budget (floored at 0). |
| Budget.SettimeBoundsSends | main.py:108 | After `/settime` with count `r`, and with no later `/recipe` or well-formed `/settime` from the user (a `/settime` that fails to parse changes nothing and may occur), the user receives at most `max(r, 0)` scheduled sends. |
| Budget.AcceptStopsSends | main.py:96 | After an accepted recipe, the user receives no scheduled send until they re-arm the budget with `/recipe` or a well-formed `/settime`. |
| Budget.FiresSpendExactly | main.py:118-131 | `k` fires against a remaining budget `n` send exactly `min(k, max(n, 0))` messages. They leave `max(n - k, 0)` when `n > 0`, and leave `n` otherwise. |
| Budget.RecipeRearmsAfterAccept | main.py:74 | `/recipe` after `accept_recipe` restores `repeats_left` from 0 to the configured count. |
| Budget.SettimeAccumulatesJobs | main.py:111 | Two valid `/settime` commands register two triggers for the user. Neither replaces the other. |

Exceptions and the order of effects follow the source:

- A raised exception keeps the effects made before it, and the next event is still processed.
- `random_recipe` generates the recipe before it fails on a missing record, so the prompt is recorded even when KeyError is raised.
- `accept_recipe` builds its closing text before writing anything. A missing record or `last_recipe` therefore raises KeyError with nothing changed.
- `/settime` writes the store before `datetime.time(hour, minute)` can reject the time. An out-of-range hour or minute therefore leaves the new record in place, with no trigger and no reply. The exception follows CPython's `time()`: OverflowError when an argument does not fit a C `int`, ValueError otherwise. This is read from CPython's argument conversion and was not executed. The Python source states no range validation of its own. The model keeps the library's 0..23 / 0..59 check only because it decides whether the trigger and the reply happen.
- `/settime` stores any integer as the repeat count, including a negative one. The model follows the code, so the budget invariant is proved only for runs whose `/settime` counts are non-negative.

## Left out

- The Flask liveness route, the webhook route, `Update.de_json`, the hand-off into the update queue and the keep-alive thread (main.py:24-34, 142-144): HTTP and cross-thread plumbing.
- The chat-completion call and `.strip()` (main.py:52-60): a foreign network service. The generated text is an input string, and failures of the service are not modelled.
- The Telegram SDK: `reply_text`, `edit_message_text`, `send_message`, `query.answer` and the keyboard markup. Each becomes a `Message` value, and `buttons` records whether the keyboard is attached.
- Failures of the messaging calls: every send and edit is treated as succeeding. In the source, two store writes come after an awaited call and are skipped when it fails. In `send_recipe`, a failed push leaves `last_recipe` overwritten but `repeats_left` unspent (main.py:123, 130-131). In `accept_recipe`, a failed edit skips `repeats_left = 0` (main.py:95-96).
- The scheduler itself (`job_queue.run_daily`): a registration is appended to `jobs`, and a firing is a `Fire(user, text)` event. When triggers fire is not modelled.
- Decimal.ParseInt: covers an optional sign and ASCII digits only. Python's `int()` also accepts underscores between digits, non-ASCII decimal digits and surrounding whitespace (command tokens never contain whitespace).
- Budget.SendBound, Budget.SettimeBoundsSends, Budget.FiresSpendExactly, Budget.ApplyPreservesGood, Budget.RunPreservesGood: proved for handlers that run one at a time. The model assumes each handler runs to completion, or to its exception, before the next event. The source does not guarantee this. `generate_recipe` has no `await` inside (the chat-completion call is synchronous), so the only point where `send_recipe` yields between its budget check (main.py:119) and its decrement (main.py:131) is `await send_message` (main.py:130). Two triggers for the same user at the same time can exist, because `/settime` adds triggers without replacing earlier ones (`Budget.SettimeAccumulatesJobs`). After two `/settime 18 30 1`, both fires can pass `repeats_left <= 0` before either decrements. The user then gets two pushes, more than `Budget.SettimeBoundsSends` and `Budget.FiresSpendExactly` allow, and the budget ends at -1, which breaks the `0 <= repeats_left` of `Budget.ApplyPreservesGood` and `Budget.RunPreservesGood`. An `accept_recipe` handled during that await is likewise followed by the decrement, which also leaves -1. This is plausible but not executed. Interleaving is not modelled.
- Handlers.Settime: the trigger registration (main.py:111) is assumed to succeed and to hand the user id to `send_recipe` (main.py:117). The source passes the id with the `context=` keyword and reads it back as `job.context`, which is the spelling of python-telegram-bot before version 20. From version 20 on, the keyword is `data=` and the attribute is `job.data`. Under version 20 the handler would write the record at line 108, then raise `TypeError` at line 111, so no trigger is registered and no confirmation is sent. The model follows the evident intent of lines 111 and 117: the trigger carries the user id to `send_recipe`. This is not executed.
- Budget.RunPreservesGood: requires non-negative `/settime` counts. The source accepts a negative count and stores it as both `repeats` and `repeats_left`, which breaks `0 <= repeats_left`. Such a budget still sends nothing.
- Webhook registration, environment variables, the port and logging (main.py:12-18, 134-148): startup I/O.

=== FILE: budget.dfy ===
/**
 * The repeat budget over a run of the bot: a sequence of commands, button
 * presses and scheduled fires applied one after another, each handler
 * running to completion (or to its exception) before the next starts.
 */
module Budget {
  import opened Handlers
  import Prompt

  /** One thing the bot reacts to. `Fire` is a registered daily trigger firing for its user. */
  datatype Event =
    | StartCmd
    | RecipeCmd(user: UserId, args: seq<string>, text: string)
    | SettimeCmd(user: UserId, args: seq<string>)
    | Press(user: UserId, data: string, text: string)
    | Fire(user: UserId, text: string)

  /**
   * Dispatch one event to its handler. Every prompt sent starts with the
   * base instruction; triggers are only ever added, one at a time and only
   * by `/settime`; and only a fire pushes, to its own user.
   */
  function Apply(st: State, e: Event): (r: Step)
    ensures r.prompt.Some? ==> Prompt.StartsWith(r.prompt.value, Prompt.Base)
    ensures |st.jobs| <= |r.state.jobs| <= |st.jobs| + 1 && r.state.jobs[..|st.jobs|] == st.jobs
    ensures |r.state.jobs| > |st.jobs| ==> e.SettimeCmd? && r.state.jobs[|st.jobs|].user == e.user
    ensures forall i :: 0 <= i < |r.sent| && r.sent[i].Push? ==> e.Fire? && r.sent[i].chat == e.user
  {
    match e
    case StartCmd => Start(st)
    case RecipeCmd(u, args, text) => Recipe(st, u, args, text)
    case SettimeCmd(u, args) => Settime(st, u, args)
    case Press(u, data, text) => Button(st, u, data, text)
    case Fire(u, text) => SendRecipe(st, u, text)
  }

  /**
   * Apply the events in order. An exception ends only its own handler: the
   * effects it made stay and the next event is processed. The result is the
   * final state and every message sent, in order.
   */
  function Run(st: State, events: seq<Event>): (r: (State, seq<Message>))
    ensures |st.jobs| <= |r.0.jobs| <= |st.jobs| + |events| && r.0.jobs[..|st.jobs|] == st.jobs
    decreases |events|
  {
    if |events| == 0 then (st, [])
    else
      var step := Apply(st, events[0]);
      var (final, sent) := Run(step.state, events[1..]);
      (final, step.sent + sent)
  }

  /** The number of scheduled sends to `user` among `msgs`. */
  function Pushes(msgs: seq<Message>, user: UserId): nat
    decreases |msgs|
  {
    if |msgs| == 0 then 0
    else (if msgs[0].Push? && msgs[0].chat == user then 1 else 0) + Pushes(msgs[1..], user)
  }

  lemma {:induction false} PushesAppend(a: seq<Message>, b: seq<Message>, user: UserId)
    ensures Pushes(a + b, user) == Pushes(a, user) + Pushes(b, user)
    decreases |a|
  {
    if |a| > 0 {
      assert (a + b)[0] == a[0];
      assert (a + b)[1..] == a[1..] + b;
      PushesAppend(a[1..], b, user);
    } else {
      assert a + b == b;
    }
  }

  lemma {:induction false} NoPushes(msgs: seq<Message>, user: UserId)
    requires forall i :: 0 <= i < |msgs| ==> !msgs[i].Push?
    ensures Pushes(msgs, user) == 0
    decreases |msgs|
  {
    if |msgs| > 0 {
      NoPushes(msgs[1..], user);
    }
  }

  function Max0(n: int): nat {
    if n < 0 then 0 else n
  }

  /** A record as every handler leaves it when no negative repeat count was configured. */
  predicate WellFormed(s: Settings) {
    && s.repeats.Some? && s.repeatsLeft.Some?
    && 0 <= s.repeatsLeft.value <= s.repeats.value
  }

  predicate Good(store: Store) {
    forall u :: u in store ==> WellFormed(store[u])
  }

  /** A `/settime` that, if it parses, configures a non-negative repeat count. */
  predicate NonNegativeSettime(e: Event) {
    e.SettimeCmd? ==> ParseSettime(e.args).None? || ParseSettime(e.args).value.2 >= 0
  }

  /** The events that set `user`'s budget afresh: `/recipe` and a `/settime` that parses, from that user. */
  predicate Rearms(e: Event, user: UserId) {
    (e.RecipeCmd? || (e.SettimeCmd? && ParseSettime(e.args).Some?)) && e.user == user
  }

  /** Every handler keeps `0 <= repeats_left <= repeats` for every user, given non-negative repeat counts. */
  lemma ApplyPreservesGood(st: State, e: Event)
    requires Good(st.settings)
    requires NonNegativeSettime(e)
    ensures Good(Apply(st, e).state.settings)
  {
  }

  /** The budget invariant holds after any run whose `/settime` commands configure non-negative counts. */
  lemma {:induction false} RunPreservesGood(st: State, events: seq<Event>)
    requires Good(st.settings)
    requires forall i :: 0 <= i < |events| ==> NonNegativeSettime(events[i])
    ensures Good(Run(st, events).0.settings)
    decreases |events|
  {
    if |events| > 0 {
      ApplyPreservesGood(st, events[0]);
      RunPreservesGood(Apply(st, events[0]).state, events[1..]);
    }
  }

  /**
   * One event that does not re-arm `user`'s budget sends `user` at most one
   * scheduled message, and only by spending one unit of a positive budget.
   */
  lemma ApplySpends(st: State, e: Event, user: UserId)
    requires !Rearms(e, user)
    ensures var step := Apply(st, e);
      Max0(RemainingRepeats(step.state.settings, user)) + Pushes(step.sent, user)
        <= Max0(RemainingRepeats(st.settings, user))
  {
    var step := Apply(st, e);
    if !e.Fire? {
      NoPushes(step.sent, user);
    }
  }

  /**
   * Over any run in which `user` neither sends `/recipe` nor `/settime`,
   * the scheduled sends to `user` plus what is left of the budget never
   * exceed the budget at the start; in particular the sends alone do not.
   */
  lemma {:induction false} SendBound(st: State, events: seq<Event>, user: UserId)
    requires forall i :: 0 <= i < |events| ==> !Rearms(events[i], user)
    ensures Max0(RemainingRepeats(Run(st, events).0.settings, user)) + Pushes(Run(st, events).1, user)
      <= Max0(RemainingRepeats(st.settings, user))
    decreases |events|
  {
    if |events| > 0 {
      var step := Apply(st, events[0]);
      ApplySpends(st, events[0], user);
      SendBound(step.state, events[1..], user);
      PushesAppend(step.sent, Run(step.state, events[1..]).1, user);
    }
  }

  /**
   * A `/settime` with repeat count `repeats` followed by any run without a
   * further `/recipe` or `/settime` from the same user sends that user at
   * most `max(repeats, 0)` scheduled messages.
   */
  lemma SettimeBoundsSends(st: State, user: UserId, args: seq<string>, events: seq<Event>)
    requires ParseSettime(args).Some?
    requires forall i :: 0 <= i < |events| ==> !Rearms(events[i], user)
    ensures Pushes(Run(st, [SettimeCmd(user, args)] + events).1, user) <= Max0(ParseSettime(args).value.2)
  {
    var all := [SettimeCmd(user, args)] + events;
    assert all[1..] == events;
    var step := Settime(st, user, args);
    SendBound(step.state, events, user);
    PushesAppend(step.sent, Run(step.state, events).1, user);
    NoPushes(step.sent, user);
  }

  /** After an accepted recipe, nothing more is pushed to the user until they re-arm the budget. */
  lemma AcceptStopsSends(st: State, user: UserId, events: seq<Event>)
    requires user in st.settings && st.settings[user].lastRecipe.Some?
    requires forall i :: 0 <= i < |events| ==> !Rearms(events[i], user)
    ensures Pushes(Run(AcceptRecipe(st, user).state, events).1, user) == 0
  {
    SendBound(AcceptRecipe(st, user).state, events, user);
  }

  /** `n` scheduled fires for `user`, with the texts the service would return. */
  function Fires(user: UserId, texts: seq<string>): (r: seq<Event>)
    ensures |r| == |texts|
    ensures forall i :: 0 <= i < |r| ==> r[i] == Fire(user, texts[i])
  {
    seq(|texts|, i requires 0 <= i < |texts| => Fire(user, texts[i]))
  }

  /**
   * Fires alone spend the budget exactly: `k` fires against a remaining
   * budget `n` send `min(k, max(n, 0))` messages and leave `n - k` when
   * that is positive, else nothing (a non-positive budget stays as it is).
   */
  lemma {:induction false} FiresSpendExactly(st: State, user: UserId, texts: seq<string>)
    ensures var (final, sent) := Run(st, Fires(user, texts));
      var n := RemainingRepeats(st.settings, user);
      var k := |texts|;
      && Pushes(sent, user) == (if k < Max0(n) then k else Max0(n))
      && RemainingRepeats(final.settings, user) == (if n <= 0 then n else if k < n then n - k else 0)
    decreases |texts|
  {
    if |texts| > 0 {
      var events := Fires(user, texts);
      assert events[1..] == Fires(user, texts[1..]);
      var step := SendRecipe(st, user, texts[0]);
      FiresSpendExactly(step.state, user, texts[1..]);
      PushesAppend(step.sent, Run(step.state, events[1..]).1, user);
      if RemainingRepeats(st.settings, user) > 0 {
        assert Pushes(step.sent, user) == 1 by {
          assert step.sent[1..] == [];
        }
      }
    }
  }

  /**
   * `/recipe` re-arms a budget that `accept_recipe` zeroed: after accepting,
   * a new `/recipe` restores the remaining count to the configured one.
   */
  lemma RecipeRearmsAfterAccept(st: State, user: UserId, args: seq<string>, text: string)
    requires user in st.settings && st.settings[user].lastRecipe.Some? && st.settings[user].repeats.Some?
    ensures var zeroed := AcceptRecipe(st, user).state;
      && RemainingRepeats(zeroed.settings, user) == 0
      && RemainingRepeats(Recipe(zeroed, user, args, text).state.settings, user) == st.settings[user].repeats.value
  {
  }

  /** Each valid `/settime` adds one more trigger for the user; none is replaced. */
  lemma SettimeAccumulatesJobs(st: State, user: UserId, first: seq<string>, second: seq<string>)
    requires ParseSettime(first).Some? && ValidTime(ParseSettime(first).value.0, ParseSettime(first).value.1)
    requires ParseSettime(second).Some? && ValidTime(ParseSettime(second).value.0, ParseSettime(second).value.1)
    ensures var (h1, m1, _) := ParseSettime(first).value;
      var (h2, m2, _) := ParseSettime(second).value;
      Settime(Settime(st, user, first).state, user, second).state.jobs
        == st.jobs + [Job(h1, m1, user), Job(h2, m2, user)]
  {
  }
}

=== FILE: decimal.dfy ===
/**
 * Decimal integers as the bot reads and writes them: Python's `int(token)` on a
 * command argument, and the `{n}` / `{n:02d}` fields of an f-string.
 */
module Decimal {
  import opened Wrappers

  predicate IsDigit(c: char) {
    '0' <= c <= '9'
  }

  predicate AllDigits(s: string) {
    forall i :: 0 <= i < |s| ==> IsDigit(s[i])
  }

  function DigitValue(c: char): nat
    requires IsDigit(c)
  {
    c as int - '0' as int
  }

  function DigitChar(d: nat): (c: char)
    requires d < 10
    ensures IsDigit(c) && DigitValue(c) == d
  {
    ('0' as int + d) as char
  }

  /** The value of a string of decimal digits, most significant first. */
  function DigitsValue(s: string): nat
    requires AllDigits(s)
  {
    if |s| == 0 then 0 else 10 * DigitsValue(s[..|s| - 1]) + DigitValue(s[|s| - 1])
  }

  /** The digits after an optional leading sign. */
  function Magnitude(s: string): string {
    if |s| > 0 && (s[0] == '+' || s[0] == '-') then s[1..] else s
  }

  /**
   * Python's `int(s)` on a whitespace-free token: an optional `+` or `-`
   * followed by one or more decimal digits; anything else is a `ValueError`,
   * modelled as `None`.
   */
  function ParseInt(s: string): (r: Option<int>)
    ensures r.Some? <==> |Magnitude(s)| > 0 && AllDigits(Magnitude(s))
    ensures r.Some? && s[0] != '-' ==> r.value >= 0
    ensures r.Some? && s[0] == '-' ==> r.value <= 0
    ensures |s| > 0 && AllDigits(s) ==> r == Some(DigitsValue(s))
    ensures r.Some? && s[0] == '+' ==> AllDigits(s[1..]) && r.value == DigitsValue(s[1..])
    ensures r.Some? && s[0] == '-' ==> AllDigits(s[1..]) && r.value == -(DigitsValue(s[1..]) as int)
  {
    var m := Magnitude(s);
    if |m| == 0 || !AllDigits(m) then None
    else
      var v: int := DigitsValue(m);
      if s[0] == '-' then Some(-v) else Some(v)
  }

  /** The shortest decimal spelling of `n`: Python's `str(n)` for a natural number. */
  function FormatNat(n: nat): (r: string)
    ensures |r| > 0 && AllDigits(r)
    ensures r[0] == '0' <==> n == 0
    ensures |r| == 1 <==> n < 10
    ensures |r| == 2 <==> 10 <= n < 100
  {
    if n < 10 then [DigitChar(n)] else FormatNat(n / 10) + [DigitChar(n % 10)]
  }

  /** Python's `f"{n}"` for an integer: a minus sign before the digits of a negative value. */
  function Format(n: int): (r: string)
    ensures |r| > 0
    ensures r[0] == '-' <==> n < 0
  {
    if n < 0 then "-" + FormatNat(-n) else FormatNat(n)
  }

  /**
   * Python's `f"{n:02d}"`: zero-padded to width two, the sign counting
   * towards the width, so 5 gives "05", 18 gives "18" and -5 gives "-5".
   */
  function Format02(n: int): (r: string)
    ensures |r| >= 2
    ensures 0 <= n < 100 ==> |r| == 2 && AllDigits(r)
    ensures ParseInt(r) == Some(n)
  {
    if 0 <= n < 10 then
      var r := "0" + [DigitChar(n)];
      assert r[..1] == "0" && r[..0] == "";
      assert DigitsValue(r[..1]) == 0;
      assert DigitsValue(r) == n;
      r
    else
      FormatRoundTrip(n);
      Format(n)
  }

  lemma {:induction false} FormatNatValue(n: nat)
    ensures DigitsValue(FormatNat(n)) == n
  {
    if n >= 10 {
      var s := FormatNat(n);
      assert s[..|s| - 1] == FormatNat(n / 10);
      FormatNatValue(n / 10);
    }
  }

  /** Reading back what `Format` wrote gives the number again. */
  lemma FormatRoundTrip(n: int)
    ensures ParseInt(Format(n)) == Some(n)
  {
    if n < 0 {
      var digits := FormatNat(-n);
      FormatNatValue(-n);
      assert Format(n) == "-" + digits;
      assert ("-" + digits)[1..] == digits;
    } else {
      FormatNatValue(n);
    }
  }

  /** `Format` is injective: two numbers never share a spelling. */
  lemma FormatInjective(m: int, n: int)
    requires Format(m) == Format(n)
    ensures m == n
  {
    FormatRoundTrip(m);
    FormatRoundTrip(n);
  }
}

=== FILE: handlers.dfy ===
/**
 * The bot's per-user settings store and its handlers (`start`, `recipe`,
 * `button`, `settime` and the scheduled `send_recipe`) as pure functions.
 * The text-generation service is outside the model: each handler that
 * generates takes the generated text as a parameter and reports the prompt
 * it would have sent.
 */
module Handlers {
  import opened Wrappers
  import Decimal
  import Prompt

  type UserId = int

  /**
   * One entry of `user_settings`. Each key of the Python dict may be
   * missing, so each field is optional.
   */
  datatype Settings = Settings(lastRecipe: Option<string>, repeatsLeft: Option<int>, repeats: Option<int>)

  type Store = map<UserId, Settings>

  /** A daily trigger registered with the scheduler: fire at hour:minute for this user. */
  datatype Job = Job(hour: int, minute: int, user: UserId)

  /** Everything the handlers change: the settings store and the registered triggers. */
  datatype State = State(settings: Store, jobs: seq<Job>)

  /**
   * What a handler sends to the messaging platform. `buttons` says whether
   * the "another recipe" / "accept recipe" keyboard is attached.
   */
  datatype Message =
    | Answer                              // acknowledgement of a button press
    | Reply(text: string, buttons: bool)  // a reply to the user's command
    | Edit(text: string, buttons: bool)   // an in-place edit of the pressed message
    | Push(chat: UserId, text: string)    // a scheduled send, always with the keyboard

  /** The exceptions a handler can end with. */
  datatype Exception = KeyError | ValueError | OverflowError

  /**
   * The outcome of one handler run: the new state, the prompt sent for
   * generation (if any), the messages sent, and the exception that ended
   * the run early, if any. Effects made before the exception are kept.
   */
  datatype Step = Step(state: State, prompt: Option<string>, sent: seq<Message>, raised: Option<Exception>)

  const RandomRecipeData: string := "random_recipe"
  const AcceptRecipeData: string := "accept_recipe"

  const StartText: string :=
    "Привет! Я бот с рецептами на ужин.\n"
    + "Используй /settime <часы> <минуты> <повторы> чтобы настроить время и количество повторов.\n"
    + "Используй /recipe чтобы получить рецепт прямо сейчас.\n"
    + "Можно указать предпочтения и ингредиенты: /recipe вегетарианский картофель морковь"
  const SettimeUsage: string := "Использование: /settime <часы> <минуты> <повторы> (например /settime 18 30 3)"
  const AcceptLead: string := "Отлично! Приятного ужина с рецептом:\n"
  const ConfirmLead: string := "Время для отправки рецепта установлено на "
  const ConfirmRepeats: string := ", повторов: "

  /** `user_settings.get(user, {}).get("repeats", 1)`: the configured repeat count, 1 by default. */
  function ConfiguredRepeats(store: Store, user: UserId): (n: int)
    ensures user !in store ==> n == 1
    ensures user in store && store[user].repeats.Some? ==> n == store[user].repeats.value
    ensures user in store && store[user].repeats.None? ==> n == 1
  {
    if user in store then store[user].repeats.GetOr(1) else 1
  }

  /** `user_settings.get(user, {}).get("repeats_left", 0)`: the remaining budget, 0 by default. */
  function RemainingRepeats(store: Store, user: UserId): (n: int)
    ensures user !in store ==> n == 0
    ensures user in store && store[user].repeatsLeft.Some? ==> n == store[user].repeatsLeft.value
    ensures user in store && store[user].repeatsLeft.None? ==> n == 0
  {
    if user in store then store[user].repeatsLeft.GetOr(0) else 0
  }

  /** `after` differs from `before` at most in the entry for `user`, which it holds. */
  predicate OnlyUserChanged(before: Store, after: Store, user: UserId) {
    && after.Keys == before.Keys + {user}
    && forall v :: v in before && v != user ==> after[v] == before[v]
  }

  /** `/start`: a fixed greeting with usage hints; nothing changes. */
  function Start(st: State): (r: Step)
    ensures r.state == st && r.prompt.None? && r.raised.None?
    ensures r.sent == [Reply(StartText, false)]
  {
    Step(st, None, [Reply(StartText, false)], None)
  }

  /**
   * `/recipe [preferences] [ingredients...]`: generates a recipe from the
   * split arguments, replaces the user's whole record with the new text and
   * a budget re-armed to the configured repeat count, and replies with the
   * text and the keyboard.
   */
  function Recipe(st: State, user: UserId, args: seq<string>, text: string): (r: Step)
    ensures r.raised.None? && r.state.jobs == st.jobs
    ensures r.prompt == Some(Prompt.BuildPrompt(Prompt.SplitArgs(args).0, Prompt.SplitArgs(args).1))
    ensures OnlyUserChanged(st.settings, r.state.settings, user)
    ensures var s := r.state.settings[user];
      && s.lastRecipe == Some(text)
      && s.repeats == Some(ConfiguredRepeats(st.settings, user))
      && s.repeatsLeft == s.repeats
    ensures r.sent == [Reply(text, true)]
  {
    var n := ConfiguredRepeats(st.settings, user);
    var (preferences, ingredients) := Prompt.SplitArgs(args);
    var settings := st.settings[user := Settings(Some(text), Some(n), Some(n))];
    Step(State(settings, st.jobs), Some(Prompt.BuildPrompt(preferences, ingredients)), [Reply(text, true)], None)
  }

  /**
   * The "random_recipe" button: generates a new recipe and stores it as the
   * user's last recipe, changing nothing else, then edits the message to it.
   * A user without a record gets `KeyError` after the generation, with the
   * store unchanged.
   */
  function RandomRecipe(st: State, user: UserId, text: string): (r: Step)
    ensures r.state.jobs == st.jobs && r.prompt == Some(Prompt.Base)
    ensures r.raised.None? <==> user in st.settings
    ensures r.raised.Some? ==> r.state == st && r.sent == []
    ensures r.raised.None? ==>
      && OnlyUserChanged(st.settings, r.state.settings, user)
      && r.state.settings[user] == st.settings[user].(lastRecipe := Some(text))
      && r.sent == [Edit(text, true)]
  {
    var prompt := Prompt.BuildPrompt("", "");
    if user !in st.settings then Step(st, Some(prompt), [], Some(KeyError))
    else
      var s := st.settings[user].(lastRecipe := Some(text));
      Step(st.(settings := st.settings[user := s]), Some(prompt), [Edit(text, true)], None)
  }

  /**
   * The "accept_recipe" button: edits the message to a closing line quoting
   * the last recipe and zeroes the remaining budget, changing nothing else.
   * A missing record or last recipe gives `KeyError` before any change.
   */
  function AcceptRecipe(st: State, user: UserId): (r: Step)
    ensures r.state.jobs == st.jobs && r.prompt.None?
    ensures r.raised.None? <==> user in st.settings && st.settings[user].lastRecipe.Some?
    ensures r.raised.Some? ==> r.state == st && r.sent == []
    ensures r.raised.None? ==>
      && OnlyUserChanged(st.settings, r.state.settings, user)
      && r.state.settings[user] == st.settings[user].(repeatsLeft := Some(0))
      && r.sent == [Edit(AcceptLead + st.settings[user].lastRecipe.value, false)]
  {
    if user !in st.settings || st.settings[user].lastRecipe.None? then Step(st, None, [], Some(KeyError))
    else
      var s := st.settings[user];
      var closing := AcceptLead + s.lastRecipe.value;
      Step(st.(settings := st.settings[user := s.(repeatsLeft := Some(0))]), None, [Edit(closing, false)], None)
  }

  /** A step preceded by the acknowledgement of the button press. */
  function Acknowledged(step: Step): Step {
    step.(sent := [Answer] + step.sent)
  }

  /**
   * A press of an inline button, identified by its callback data. Every
   * press is acknowledged first; then the data selects the button's
   * handler, and any other data does nothing more. Only the pressing user's
   * record can change, and no key is added or removed.
   */
  function Button(st: State, user: UserId, data: string, text: string): (r: Step)
    ensures r.state.jobs == st.jobs
    ensures |r.sent| >= 1 && r.sent[0] == Answer
    ensures r.raised.Some? ==> r.state == st && r.sent == [Answer]
    ensures r.state.settings.Keys == st.settings.Keys
    ensures forall v :: v in st.settings && v != user ==> r.state.settings[v] == st.settings[v]
    ensures data == RandomRecipeData ==> r == Acknowledged(RandomRecipe(st, user, text))
    ensures data == AcceptRecipeData ==> r == Acknowledged(AcceptRecipe(st, user))
    ensures data != RandomRecipeData && data != AcceptRecipeData ==> r == Step(st, None, [Answer], None)
  {
    if data == RandomRecipeData then Acknowledged(RandomRecipe(st, user, text))
    else if data == AcceptRecipeData then Acknowledged(AcceptRecipe(st, user))
    else Step(st, None, [Answer], None)
  }

  /**
   * The three integer arguments of `/settime <hour> <minute> <repeats>`;
   * `None` when there are fewer than three or one of the first three is not
   * an integer. Further arguments are ignored.
   */
  function ParseSettime(args: seq<string>): (r: Option<(int, int, int)>)
    ensures r.Some? <==>
      |args| >= 3 && Decimal.ParseInt(args[0]).Some? && Decimal.ParseInt(args[1]).Some? && Decimal.ParseInt(args[2]).Some?
    ensures r.Some? ==>
      r.value == (Decimal.ParseInt(args[0]).value, Decimal.ParseInt(args[1]).value, Decimal.ParseInt(args[2]).value)
  {
    if |args| < 3 then None
    else
      match (Decimal.ParseInt(args[0]), Decimal.ParseInt(args[1]), Decimal.ParseInt(args[2]))
      case (Some(hour), Some(minute), Some(repeats)) => Some((hour, minute, repeats))
      case _ => None
  }

  /** The arguments `Decimal.Format` writes are read back as the same numbers. */
  lemma ParseSettimeRoundTrip(hour: int, minute: int, repeats: int, extra: seq<string>)
    ensures ParseSettime([Decimal.Format(hour), Decimal.Format(minute), Decimal.Format(repeats)] + extra)
      == Some((hour, minute, repeats))
  {
    Decimal.FormatRoundTrip(hour);
    Decimal.FormatRoundTrip(minute);
    Decimal.FormatRoundTrip(repeats);
  }

  /**
   * What `datetime.time(hour, minute)` accepts: a time of day, whose hour
   * and minute each print as exactly two digits under `{:02d}`.
   */
  predicate ValidTime(hour: int, minute: int): (ok: bool)
    ensures ok ==> 0 <= hour * 60 + minute < 24 * 60
    ensures ok ==> |Decimal.Format02(hour)| == 2 && |Decimal.Format02(minute)| == 2
  {
    0 <= hour < 24 && 0 <= minute < 60
  }

  /** `n` converts to a C `int`, as `datetime.time` needs of each argument. */
  predicate FitsCInt(n: int) {
    -0x8000_0000 <= n < 0x8000_0000
  }

  /**
   * The exception `datetime.time(hour, minute)` raises, if any: both
   * arguments are converted to C `int`s before the range is checked, so an
   * argument outside the C `int` range gives `OverflowError` and otherwise
   * an hour outside 0..23 or a minute outside 0..59 gives `ValueError`.
   */
  function TimeError(hour: int, minute: int): (r: Option<Exception>)
    ensures r.None? <==> ValidTime(hour, minute)
    ensures r == Some(OverflowError) <==> !FitsCInt(hour) || !FitsCInt(minute)
    ensures r.Some? ==> r.value == OverflowError || r.value == ValueError
  {
    if !FitsCInt(hour) || !FitsCInt(minute) then Some(OverflowError)
    else if !ValidTime(hour, minute) then Some(ValueError)
    else None
  }

  /** The confirmation `/settime` replies with. */
  function Confirmation(hour: int, minute: int, repeats: int): (r: string)
    ensures |r| > |ConfirmLead| && r[..|ConfirmLead|] == ConfirmLead
    ensures ValidTime(hour, minute) ==>
      |r| >= |ConfirmLead| + 5 && r[|ConfirmLead|..|ConfirmLead| + 5] == Decimal.Format02(hour) + ":" + Decimal.Format02(minute)
    ensures |r| >= |Decimal.Format(repeats)| && r[|r| - |Decimal.Format(repeats)|..] == Decimal.Format(repeats)
  {
    var hh, mm, rr := Decimal.Format02(hour), Decimal.Format02(minute), Decimal.Format(repeats);
    var r := ConfirmLead + hh + ":" + mm + ConfirmRepeats + rr;
    Fields(ConfirmLead, hh, mm, ConfirmRepeats, rr);
    assert r[|r| - |rr|..] == rr;
    r
  }

  /**
   * The confirmation echoes its numbers: at fixed positions after the lead
   * stand the two-digit hour, a colon and the two-digit minute, and the text
   * ends with the repeat count, each reading back as the number it shows.
   */
  lemma ConfirmationEchoes(hour: int, minute: int, repeats: int)
    requires ValidTime(hour, minute)
    ensures var c := Confirmation(hour, minute, repeats);
      var p := |ConfirmLead|;
      && |c| > p + 5 + |ConfirmRepeats|
      && c[..p] == ConfirmLead
      && Decimal.ParseInt(c[p..p + 2]) == Some(hour)
      && c[p + 2] == ':'
      && Decimal.ParseInt(c[p + 3..p + 5]) == Some(minute)
      && c[p + 5..p + 5 + |ConfirmRepeats|] == ConfirmRepeats
      && Decimal.ParseInt(c[p + 5 + |ConfirmRepeats|..]) == Some(repeats)
  {
    Decimal.FormatRoundTrip(repeats);
    Fields(ConfirmLead, Decimal.Format02(hour), Decimal.Format02(minute), ConfirmRepeats, Decimal.Format(repeats));
  }

  /** Where each piece of `lead + hh + ":" + mm + mid + tail` sits. */
  lemma Fields(lead: string, hh: string, mm: string, mid: string, tail: string)
    ensures var c := lead + hh + ":" + mm + mid + tail;
      var p := |lead|;
      var q := p + |hh| + 1 + |mm|;
      && |c| == q + |mid| + |tail|
      && c[..p] == lead
      && c[p..p + |hh|] == hh
      && c[p + |hh|] == ':'
      && c[p + |hh| + 1..q] == mm
      && c[p..q] == hh + ":" + mm
      && c[q..q + |mid|] == mid
      && c[q + |mid|..] == tail
  {
    var c := lead + hh + ":" + mm + mid + tail;
    var p := |lead|;
    var q := p + |hh| + 1 + |mm|;
    assert c == lead + (hh + ":" + mm) + mid + tail;
    assert c[p..q] == hh + ":" + mm;
  }

  /** For example, 18 and 5 are shown as "18:05". */
  lemma ConfirmationExample()
    ensures Decimal.Format02(18) + ":" + Decimal.Format02(5) == "18:05"
  {
  }

  /**
   * `/settime <hour> <minute> <repeats>`. Malformed arguments get the usage
   * message and change nothing. Otherwise the user's record is overwritten
   * with the repeat count as both the configured and the remaining budget,
   * dropping the last recipe; only then is a daily trigger added, which
   * `datetime.time` refuses with `ValueError` for an hour outside 0..23 or
   * a minute outside 0..59, leaving the store written but no trigger and no
   * reply. Triggers accumulate: earlier ones for the user stay registered.
   */
  function Settime(st: State, user: UserId, args: seq<string>): (r: Step)
    ensures r.prompt.None?
    ensures ParseSettime(args).None? ==> r == Step(st, None, [Reply(SettimeUsage, false)], None)
    ensures ParseSettime(args).Some? ==>
      var (hour, minute, repeats) := ParseSettime(args).value;
      && OnlyUserChanged(st.settings, r.state.settings, user)
      && r.state.settings[user] == Settings(None, Some(repeats), Some(repeats))
      && (ValidTime(hour, minute) ==>
            && r.state.jobs == st.jobs + [Job(hour, minute, user)]
            && r.sent == [Reply(Confirmation(hour, minute, repeats), false)]
            && r.raised.None?)
      && (!ValidTime(hour, minute) ==>
            r.state.jobs == st.jobs && r.sent == [] && r.raised == TimeError(hour, minute))
  {
    match ParseSettime(args)
    case None => Step(st, None, [Reply(SettimeUsage, false)], None)
    case Some((hour, minute, repeats)) =>
      var settings := st.settings[user := Settings(None, Some(repeats), Some(repeats))];
      if !ValidTime(hour, minute) then Step(State(settings, st.jobs), None, [], TimeError(hour, minute))
      else
        var jobs := st.jobs + [Job(hour, minute, user)];
        Step(State(settings, jobs), None, [Reply(Confirmation(hour, minute, repeats), false)], None)
  }

  /**
   * The scheduled `send_recipe` for one user. With no positive budget it
   * does nothing at all. Otherwise it generates a recipe, stores it as the
   * last recipe, pushes it to the user with the keyboard and spends one
   * unit of the budget; the configured count is untouched.
   */
  function SendRecipe(st: State, user: UserId, text: string): (r: Step)
    ensures r.raised.None? && r.state.jobs == st.jobs
    ensures RemainingRepeats(st.settings, user) <= 0 ==> r == Step(st, None, [], None)
    ensures RemainingRepeats(st.settings, user) > 0 ==>
      && user in st.settings
      && OnlyUserChanged(st.settings, r.state.settings, user)
      && r.state.settings[user] == st.settings[user].(
           lastRecipe := Some(text),
           repeatsLeft := Some(RemainingRepeats(st.settings, user) - 1))
      && RemainingRepeats(r.state.settings, user) == RemainingRepeats(st.settings, user) - 1
      && r.prompt == Some(Prompt.Base)
      && r.sent == [Push(user, text)]
  {
    var left := RemainingRepeats(st.settings, user);
    if left <= 0 then Step(st, None, [], None)
    else
      var s := st.settings[user].(lastRecipe := Some(text), repeatsLeft := Some(left - 1));
      Step(st.(settings := st.settings[user := s]), Some(Prompt.BuildPrompt("", "")), [Push(user, text)], None)
  }

}

=== FILE: prompt.dfy ===
/**
 * The text side of `/recipe` and of `generate_recipe`: how the command's
 * arguments become a preferences string and an ingredients list, and how
 * those become the prompt sent to the text-generation service.
 */
module Prompt {
  import opened Wrappers

  /** The fixed instruction every prompt starts with. */
  const Base: string := "Предложи один легкий рецепт ужина с пошаговым описанием."
  /** Introduces the preferences clause. */
  const PreferencesLead: string := " Предпочтения: "
  /** Introduces the ingredients clause. */
  const IngredientsLead: string := " Используй эти ингредиенты, если возможно: "
  /** What `", ".join` puts between ingredients. */
  const Separator: string := ", "

  predicate StartsWith(s: string, prefix: string) {
    |prefix| <= |s| && s[..|prefix|] == prefix
  }

  predicate NoSpace(s: string) {
    forall i :: 0 <= i < |s| ==> s[i] != ' '
  }

  /**
   * The shape of the entries of `context.args`: the command text split on
   * whitespace, so every entry is non-empty and holds no space.
   */
  predicate Tokens(args: seq<string>) {
    forall i :: 0 <= i < |args| ==> |args[i]| > 0 && NoSpace(args[i])
  }

  /** Python's `sep.join(xs)`. */
  function Join(xs: seq<string>, sep: string): (r: string)
    ensures |xs| > 0 ==> StartsWith(r, xs[0])
    ensures |xs| >= 2 ==> |r| >= |xs[0]| + |sep| + |xs[1]|
  {
    if |xs| == 0 then ""
    else if |xs| == 1 then xs[0]
    else
      var r := xs[0] + sep + Join(xs[1..], sep);
      assert r[..|xs[0]|] == xs[0];
      r
  }

  /** `sep` occurs in `s` starting at position `j`. */
  predicate OccursAt(s: string, sep: string, j: nat) {
    j + |sep| <= |s| && s[j..j + |sep|] == sep
  }

  /** The position of the leftmost occurrence of `sep` in `s`, if any. */
  function Find(s: string, sep: string): (r: Option<nat>)
    requires |sep| > 0
    ensures r.Some? ==> OccursAt(s, sep, r.value)
    ensures forall j: nat :: (r.None? || j < r.value) ==> !OccursAt(s, sep, j)
    decreases |s|
  {
    if |s| < |sep| then None
    else if s[..|sep|] == sep then Some(0)
    else
      var tail := Find(s[1..], sep);
      forall j: nat | 1 <= j
        ensures OccursAt(s, sep, j) <==> OccursAt(s[1..], sep, j - 1)
      {
        if j + |sep| <= |s| {
          var a, b := s[j..j + |sep|], s[1..][j - 1..j - 1 + |sep|];
          assert |a| == |b|;
          assert forall i :: 0 <= i < |a| ==> a[i] == s[j + i] == b[i];
          assert a == b;
        }
      }
      match tail
      case None => None
      case Some(k) => Some(k + 1)
  }

  /**
   * Python's `s.split(sep)`: the pieces between the non-overlapping
   * occurrences of `sep`, found left to right. Joining the pieces again gives `s`.
   */
  function Split(s: string, sep: string): (r: seq<string>)
    requires |sep| > 0
    ensures |r| >= 1
    ensures Join(r, sep) == s
    ensures forall i :: 0 <= i < |r| ==> Find(r[i], sep).None?
    decreases |s|
  {
    match Find(s, sep)
    case None => [s]
    case Some(k) =>
      var rest := Split(s[k + |sep|..], sep);
      var r := [s[..k]] + rest;
      PrefixBeforeFind(s, sep, k);
      assert r[1..] == rest;
      assert s == s[..k] + sep + s[k + |sep|..];
      r
  }

  /** An occurrence that ends within the first `k` characters is one in `s[..k]` too. */
  lemma OccursInPrefix(s: string, sep: string, k: nat, j: nat)
    requires k <= |s| && j + |sep| <= k
    ensures OccursAt(s[..k], sep, j) <==> OccursAt(s, sep, j)
  {
    assert s[..k][j..j + |sep|] == s[j..j + |sep|];
  }

  /** The part of `s` before the leftmost separator holds no separator. */
  lemma PrefixBeforeFind(s: string, sep: string, k: nat)
    requires |sep| > 0 && Find(s, sep) == Some(k)
    ensures Find(s[..k], sep).None?
  {
    assert k <= |s| by {
      assert OccursAt(s, sep, k);
    }
    forall j: nat
      ensures !OccursAt(s[..k], sep, j)
    {
      if j + |sep| <= k {
        OccursInPrefix(s, sep, k, j);
      }
    }
  }

  /** In a joined list of space-free items, the first separator follows the first item. */
  lemma FindAfterItem(x: string, y: string)
    requires NoSpace(x)
    ensures Find(x + Separator + y, Separator) == Some(|x|)
  {
    var s := x + Separator + y;
    assert s[|x|..|x| + 2] == Separator;
    assert OccursAt(s, Separator, |x|);
    forall j: nat | j < |x|
      ensures !OccursAt(s, Separator, j)
    {
      if j + 1 < |x| {
        assert s[j..j + 2][1] == x[j + 1];
      } else {
        assert s[j..j + 2][1] == ',';
      }
    }
  }

  /** A space-free string holds no separator. */
  lemma FindInItem(x: string)
    requires NoSpace(x)
    ensures Find(x, Separator) == None
  {
    forall j: nat | j + 2 <= |x|
      ensures !OccursAt(x, Separator, j)
    {
      assert x[j..j + 2][1] == x[j + 1];
    }
  }

  /** Splitting a `", "`-joined list of space-free items gives the items back. */
  lemma {:induction false} SplitJoin(xs: seq<string>)
    requires |xs| >= 1
    requires forall i :: 0 <= i < |xs| ==> NoSpace(xs[i])
    ensures Split(Join(xs, Separator), Separator) == xs
  {
    if |xs| == 1 {
      FindInItem(xs[0]);
    } else {
      var rest := Join(xs[1..], Separator);
      FindAfterItem(xs[0], rest);
      var s := xs[0] + Separator + rest;
      assert s[|xs[0]| + 2..] == rest;
      assert s[..|xs[0]|] == xs[0];
      SplitJoin(xs[1..]);
    }
  }

  /**
   * How `/recipe` reads its arguments: the first token is the preferences,
   * the remaining tokens joined with `", "` are the ingredients; both default to "".
   */
  function SplitArgs(args: seq<string>): (r: (string, string))
    ensures |args| == 0 ==> r == ("", "")
    ensures |args| >= 1 ==> r.0 == args[0]
    ensures |args| == 1 ==> r.1 == ""
    ensures |args| >= 2 ==> r.1 == Join(args[1..], Separator)
  {
    var preferences := if |args| > 0 then args[0] else "";
    var ingredients := if |args| > 1 then Join(args[1..], Separator) else "";
    (preferences, ingredients)
  }

  /** The tokens a preferences string and an ingredients list stand for. */
  function ArgsOf(preferences: string, ingredients: string): seq<string>
  {
    (if preferences == "" then [] else [preferences])
      + (if ingredients == "" then [] else Split(ingredients, Separator))
  }

  /**
   * Nothing is lost when `/recipe` splits its arguments: the preferences
   * are non-empty exactly when there is an argument, the ingredients exactly
   * when there are two, and the tokens can be read back from the pair.
   */
  lemma SplitArgsRecoverable(args: seq<string>)
    requires Tokens(args)
    ensures SplitArgs(args).0 != "" <==> |args| >= 1
    ensures SplitArgs(args).1 != "" <==> |args| >= 2
    ensures ArgsOf(SplitArgs(args).0, SplitArgs(args).1) == args
  {
    if |args| >= 2 {
      var tail := args[1..];
      assert forall i :: 0 <= i < |tail| ==> NoSpace(tail[i]);
      SplitJoin(tail);
    }
  }

  /** The clause `BuildPrompt` appends for the ingredients. */
  function IngredientsClause(ingredients: string): string {
    if ingredients != "" then IngredientsLead + ingredients + "." else ""
  }

  /** The clause `BuildPrompt` appends for the preferences. */
  function PreferencesClause(preferences: string): string {
    if preferences != "" then PreferencesLead + preferences + "." else ""
  }

  /**
   * The prompt `generate_recipe` sends: the base instruction, then the
   * preferences clause when preferences is non-empty, then the ingredients
   * clause when ingredients is non-empty.
   */
  function BuildPrompt(preferences: string, ingredients: string): (r: string)
    ensures StartsWith(r, Base)
    ensures |r| > |Base| <==> preferences != "" || ingredients != ""
  {
    var r := Base + PreferencesClause(preferences) + IngredientsClause(ingredients);
    assert r[..|Base|] == Base;
    r
  }

  /** The position of the first space in `s`, or `|s|` when there is none. */
  function FirstSpace(s: string): (k: nat)
    ensures k <= |s|
    ensures forall j :: 0 <= j < k ==> s[j] != ' '
    ensures k < |s| ==> s[k] == ' '
  {
    if |s| == 0 || s[0] == ' ' then 0 else 1 + FirstSpace(s[1..])
  }

  /** Reads the ingredients clause back, "" when the clause is absent. */
  function ParseIngredients(t: string): (r: Option<string>)
    ensures r == Some("") <==> t == ""
  {
    if t == "" then Some("")
    else if |t| >= |IngredientsLead| + 2 && StartsWith(t, IngredientsLead) && t[|t| - 1] == '.' then
      Some(t[|IngredientsLead|..|t| - 1])
    else None
  }

  /**
   * Reads the clauses after the base instruction back into preferences and
   * ingredients. The preferences clause ends at the first space after its
   * lead, which is unambiguous because a preferences token holds no space.
   */
  function ParseClauses(rest: string): Option<(string, string)> {
    if StartsWith(rest, PreferencesLead) then
      var body := rest[|PreferencesLead|..];
      var k := FirstSpace(body);
      if k < 2 || body[k - 1] != '.' then None
      else
        match ParseIngredients(body[k..])
        case None => None
        case Some(ingredients) => Some((body[..k - 1], ingredients))
    else
      match ParseIngredients(rest)
      case None => None
      case Some(ingredients) => Some(("", ingredients))
  }

  /** Reads a whole prompt back into its preferences and ingredients. */
  function ParsePrompt(s: string): (r: Option<(string, string)>)
    ensures r.Some? ==> StartsWith(s, Base)
  {
    if !StartsWith(s, Base) then None else ParseClauses(s[|Base|..])
  }

  /** The ingredients clause reads back as its ingredients, and its absence as "". */
  lemma IngredientsRoundTrip(ingredients: string)
    ensures ParseIngredients(IngredientsClause(ingredients)) == Some(ingredients)
  {
  }

  /** The first space of `x + t` is where `t` starts, when `x` has none and `t` starts with one. */
  lemma FirstSpaceAt(x: string, t: string)
    requires NoSpace(x)
    requires t == "" || t[0] == ' '
    ensures FirstSpace(x + t) == |x|
  {
    assert forall j :: 0 <= j < |x| ==> (x + t)[j] == x[j];
    assert t != "" ==> (x + t)[|x|] == t[0];
  }

  /** An ingredients clause never starts like a preferences clause. */
  lemma ClausesDiffer(tail: string)
    requires tail == "" || StartsWith(tail, IngredientsLead)
    ensures !StartsWith(tail, PreferencesLead)
  {
    assert PreferencesLead[1] != IngredientsLead[1];
    if tail != "" {
      assert tail[1] == tail[..|IngredientsLead|][1] == IngredientsLead[1];
      assert |tail| < |PreferencesLead| || tail[..|PreferencesLead|][1] != PreferencesLead[1];
    }
  }

  /** Reading `lead + item + "." + tail` back: the item ends at the first space after the lead. */
  lemma ClauseRoundTrip(lead: string, item: string, tail: string)
    requires NoSpace(item) && item != ""
    requires tail == "" || tail[0] == ' '
    ensures var rest := lead + item + "." + tail;
      && StartsWith(rest, lead)
      && var body := rest[|lead|..];
         && FirstSpace(body) == |item| + 1
         && body[..|item|] == item
         && body[|item|] == '.'
         && body[|item| + 1..] == tail
  {
    var rest := lead + item + "." + tail;
    assert rest[..|lead|] == lead;
    var body := rest[|lead|..];
    assert body == (item + ".") + tail;
    assert NoSpace(item + ".") by {
      assert forall i :: 0 <= i < |item| ==> (item + ".")[i] == item[i];
    }
    FirstSpaceAt(item + ".", tail);
  }

  /** Dropping the first part of a three-part concatenation. */
  lemma DropThree(a: string, b: string, c: string)
    ensures StartsWith(a + b + c, a) && (a + b + c)[|a|..] == b + c
  {
  }

  /** An ingredients clause, when present, starts with a space and with its lead. */
  lemma IngredientsClauseShape(ingredients: string)
    ensures var tail := IngredientsClause(ingredients);
      tail == "" || (tail[0] == ' ' && StartsWith(tail, IngredientsLead))
  {
    var tail := IngredientsClause(ingredients);
    if tail != "" {
      assert tail[0] == IngredientsLead[0];
      assert tail[..|IngredientsLead|] == IngredientsLead;
    }
  }

  /** The clauses after the base instruction read back as the inputs they were built from. */
  lemma ClausesRoundTrip(preferences: string, ingredients: string)
    requires NoSpace(preferences)
    ensures ParseClauses(PreferencesClause(preferences) + IngredientsClause(ingredients)) == Some((preferences, ingredients))
  {
    var tail := IngredientsClause(ingredients);
    IngredientsRoundTrip(ingredients);
    IngredientsClauseShape(ingredients);
    if preferences != "" {
      ClauseRoundTrip(PreferencesLead, preferences, tail);
    } else {
      ClausesDiffer(tail);
      assert PreferencesClause(preferences) + tail == tail;
    }
  }

  /**
   * The prompt determines its inputs: for space-free preferences, reading
   * the prompt back gives exactly the preferences and ingredients it was
   * built from, so each clause is present exactly when its input is
   * non-empty, and preferences come before ingredients.
   */
  lemma PromptRoundTrip(preferences: string, ingredients: string)
    requires NoSpace(preferences)
    ensures ParsePrompt(BuildPrompt(preferences, ingredients)) == Some((preferences, ingredients))
  {
    DropThree(Base, PreferencesClause(preferences), IngredientsClause(ingredients));
    ClausesRoundTrip(preferences, ingredients);
  }

  /**
   * End to end for `/recipe`: the prompt built from well-formed arguments
   * determines those arguments.
   */
  lemma RecipePromptDeterminesArgs(args: seq<string>)
    requires Tokens(args)
    ensures var (p, i) := SplitArgs(args);
      ParsePrompt(BuildPrompt(p, i)) == Some((p, i)) && ArgsOf(p, i) == args
  {
    SplitArgsRecoverable(args);
    PromptRoundTrip(SplitArgs(args).0, SplitArgs(args).1);
  }
}

=== FILE: wrappers.dfy ===
/** The optional value used for Python's `dict.get` lookups and for parses that may fail. */
module Wrappers {

  datatype Option<+T> = None | Some(value: T) {

    /** The wrapped value, or `default` when there is none (Python's `d.get(k, default)`). */
    function GetOr(default: T): T {
      match this
      case Some(v) => v
      case None => default
    }
  }
}
